=== FILE: README.md ===
# Alarm clock core, modelled in Dafny

This project models the logic of the `AlarmClock` class of a small desktop alarm clock
(`Alaram.py`). It is a sequential state machine over three pieces of state:

- the **alarm list**: an ordered sequence of `{time, active}` records. `time` is the trigger
  moment in its stored text form `YYYY-MM-DD HH:MM`;
- the **alarm file**: an abstract snapshot of the list. It is overwritten after every change
  and read back once at start-up;
- the **sound player**: whether the alarm clip is playing, and whether the "Stop Alarm"
  button is enabled.

The actions are start-up (`load_alarms` plus the first display), `set_alarm`, `toggle_alarm`,
`delete_alarm`, a timer firing (`play_alarm_sound`) and the stop button (`stop_alarm_sound`).
Each list action saves the whole list and then re-runs `display_alarms`. That pass calls
`schedule_alarm` on every active entry, and `schedule_alarm` starts a one-shot timer only when
the delay to the entry's moment is positive. The model returns, for each action, the list
positions that pass armed.

Modules, one per concern:

- `Moments` (moments.dfy): minute-resolution moments, wall-clock instants with seconds and
  microseconds, chronological order, and the exact microsecond delay `alarm_time - now`.
  The delay uses proleptic-Gregorian day ordinals.
- `TimeFormat` (time_format.dfy): `Format` (`strftime('%Y-%m-%d %H:%M')`) and `Parse`
  (`strptime` with the same format). They are proved inverse in both directions.
- `AlarmList` (alarm_list.dfy): the record type, the in-place flip of `active`, and
  `list.remove`'s removal of the first equal entry.
- `Scheduler` (scheduler.dfy): the arming rule and the display pass.
- `Store` (store.dfy): load and save of the alarm file.
- `SoundPlayer` (sound_player.dfy): the two player flags.
- `AlarmClock` (alarm_clock.dfy): the whole state and its actions.
- `Scenarios` (scenarios.dfy): concrete runs.
- `Wrappers` (wrappers.dfy): the `Option` type.

Inputs the source takes from its surroundings are parameters:

- the wall clock: `now` for the past-time check of `set_alarm`, and `later` for the display
  pass that closes the action;
- whether the alarm file can be read (`Disk.content`) and written (`Disk.writable`);
- whether the sound clip loads (`clipLoads`);
- the calendar date and the hour and minute pickers' values.

Errors are values of `AlarmClock.Error`, not dialogs. They cover the two message boxes (a
failed load, a past time) and four exceptions the source leaves uncaught: `strptime` in
`set_alarm` (BadTimeField), `list.remove` (NotListed), the save (SaveFailed) and `strptime` in
`schedule_alarm` (MalformedTime). A clip that fails to load is modelled only through
`clipLoads` and the two player flags; the exception `play_alarm_sound` then raises has no
error value.

Some behaviours of the code are easy to miss. The model follows the code in each of them:

- Delete removes the first entry *equal* to the clicked row's record (`list.remove`), not the
  clicked row itself. When an equal record sits on an earlier row, the earlier one goes. The
  surviving entries are the same, but their order can differ (`AlarmList.RemoveDuplicateRowReorders`).
- `play_alarm_sound` enables the stop button *before* it loads the clip. If the clip fails to
  load from the idle state, the button is enabled while nothing plays
  (`SoundPlayer.FailedPlayBreaksConsistency`). The invariant "stop enabled exactly while
  playing" therefore holds only when the clip loads.
- A save failure is not caught. The in-memory change stays, the file keeps its old contents,
  and the display pass does not run (`AlarmClock.Commit`).
- An active entry whose stored time does not parse makes `schedule_alarm` raise. This stops
  the display pass part-way. Timers already armed earlier in that pass stay armed
  (`Scheduler.PassFromCrashes`, `Scheduler.PassFromComplete`). Nothing from the failing entry on
  is armed (`Scheduler.DisplayArms`).
- `set_alarm` reads the clock twice: once for the past-time check and again, inside
  `schedule_alarm`, for the delay. An alarm for the next minute, set in the last microseconds
  of the current one, is accepted and stored but not armed (`AlarmClock.SetAlarmAtMinuteBoundary`).

## Model

| member | source | states |
|---|---|---|
| Moments.OrdinalOrder | Alaram.py:113 | On valid moments, chronological order is exactly the order of the day/minute ordinals that datetime subtraction works on. Equal moments have equal ordinals and no others do. |
| Moments.DelayMicros | Alaram.py:113 | The delay from a clock reading to a whole-minute moment is the gap between their minutes less the part of the current minute already elapsed: above the minute gap minus one minute and at most the minute gap, and equal to it when the reading falls on a whole minute. |
| Moments.DelayPositiveIffAfter | Alaram.py:113-114 | The delay `schedule_alarm` computes is positive exactly when the moment is strictly after the clock reading. So its `delay <= 0` skip agrees with `set_alarm`'s `alarm_time <= now` rejection. |
| Moments.AfterIsAfterMinute | Alaram.py:65 | Comparing a whole-minute alarm time with a clock reading that has seconds and microseconds is the same as comparing it with the minute the reading falls in. |
| Moments.DaysBeforeYearGrows | Alaram.py:113 | Every day of a year comes before the first day of any later year. This is the ordering fact the delay relies on across years, leap days included. |
| TimeFormat.Format | Alaram.py:70 | The stored text of a valid moment is 16 characters long, with `-`, `-`, a space and `:` at the separator columns of `YYYY-MM-DD HH:MM`. |
| TimeFormat.Parse | Alaram.py:112 | A string that parses names a valid moment (a real calendar date, hour 0–23, minute 0–59) and has the `YYYY-MM-DD HH:MM` length and separators; any other string is the ValueError. |
| TimeFormat.ParseFormat | Alaram.py:70 | For every valid moment (hour 0–23, minute 0–59, a real calendar date), parsing the stored text gives the moment back. |
| TimeFormat.FormatParse | Alaram.py:112 | Any string that parses is exactly the formatted form of the moment it names. |
| TimeFormat.ParseIffFormat | Alaram.py:112 | A string parses to `m` if and only if `m` is valid and the string is `m`'s formatted form. |
| AlarmList.Toggle | Alaram.py:102 | Only the chosen entry's `active` flag changes. Its time, the list length and every other entry are unchanged. |
| AlarmList.ToggleTwice | Alaram.py:101-102 | Toggling the same entry twice restores the original list. |
| AlarmList.IndexOf | Alaram.py:107 | The position found holds `a`, and no earlier position does. It is below the length exactly when `a` is listed. |
| AlarmList.RemoveFirst | Alaram.py:107 | `list.remove` fails exactly when no entry equals `a`. Otherwise it removes just the first equal entry, keeping the others in order. |
| AlarmList.RemoveFirstEntries | Alaram.py:107 | A successful removal shortens the list by one and removes exactly one copy of `a` from its entries. |
| AlarmList.RemoveRowFound | Alaram.py:94-95 | A listed entry's own record is always found, at that position or an earlier one. So while the rows on screen reflect the list (after an action whose save succeeded), a row's delete button never raises. |
| AlarmList.RemoveRowSameEntries | Alaram.py:94-95 | Deleting a row by its record leaves the same entries, with multiplicity, as removing that row. |
| AlarmList.RemoveUniqueRow | Alaram.py:107 | When no earlier row holds an equal record, deleting a row by its record removes exactly that row. |
| AlarmList.RemoveDuplicateRowReorders | Alaram.py:94-95 | With records x, y, x, row 2's delete button removes row 0. The result is y, x rather than x, y. |
| Scheduler.Armable | Alaram.py:111-115 | The condition under which `schedule_alarm` starts a timer, defined by the parse and the positive microsecond delay, holds exactly when the entry is active and its time parses to a moment strictly after the clock reading. |
| Scheduler.ArmableIffActiveAndFuture | Alaram.py:111-115 | `schedule_alarm` starts a timer exactly for an active entry whose time parses to a moment strictly after now. |
| Scheduler.PassFrom | Alaram.py:82-99 | The positions a display pass arms are increasing, within the list, each armable, and all before the first active entry whose time does not parse (the loop stops there when `schedule_alarm` raises). |
| Scheduler.PassFromCrashes | Alaram.py:98-99 | A display pass stops early exactly when it meets an active entry whose time does not parse. |
| Scheduler.PassFromComplete | Alaram.py:98-99 | Every armable entry before the first unparsable active entry gets a timer. |
| Scheduler.Display | Alaram.py:78-99 | A full display pass arms only armable entries, each at most once, in list order, and none at or after the first unparsable active entry. |
| Scheduler.DisplayArms | Alaram.py:82-99 | A display pass stops early exactly when some active entry does not parse, and it arms entry j exactly when j comes before the first such entry and j is active with a moment strictly after now. |
| Scheduler.DisplayArmsExactly | Alaram.py:98-99 | With no unparsable active entry, the pass completes and arms exactly the active entries whose moment is strictly after now. |
| Scheduler.DisplayNeverArmsPastOrInactive | Alaram.py:113-115 | An inactive entry, or one whose moment is not after now, is never armed. |
| Store.Load | Alaram.py:129-134 | A failed load leaves the empty initial list and reports the failure. A successful load yields exactly the file's list. |
| Store.Save | Alaram.py:136-138 | A write replaces the whole file with the list, or fails and leaves the file untouched. |
| Store.SaveThenLoad | Alaram.py:136-138 | Loading what was just saved yields the saved list. |
| Store.LoadThenSave | Alaram.py:129-138 | Saving the list just loaded leaves the file as it was. |
| SoundPlayer.Play | Alaram.py:120-123 | Firing always enables stop. The clip plays if it loads, and otherwise the player keeps its previous playing state. |
| SoundPlayer.Stop | Alaram.py:125-127 | Stopping leaves nothing playing and stop disabled, from any state. |
| SoundPlayer.InitialConsistent | Alaram.py:45 | At start-up nothing plays and stop is disabled. |
| SoundPlayer.PlayConsistent | Alaram.py:121-123 | A play whose clip loads leaves the player playing with stop enabled. |
| SoundPlayer.FailedPlayBreaksConsistency | Alaram.py:121-122 | From the idle state, a clip that fails to load leaves stop enabled while nothing plays. |
| SoundPlayer.StopIdempotent | Alaram.py:125-127 | Stopping twice is the same as stopping once. |
| AlarmClock.Refresh | Alaram.py:76 | A closing display pass leaves the state as it is. It reports MalformedTime exactly when some active entry's time does not parse, and arms entry j exactly when j comes before the first such entry and is active with a moment strictly after the clock reading. |
| AlarmClock.Commit | Alaram.py:74-76 | After a list change, a writable file ends up holding exactly the new list, and the display pass over the new list decides what is armed and whether MalformedTime is raised. An unwritable file is left alone, with SaveFailed reported, the change kept and nothing armed. |
| AlarmClock.Start | Alaram.py:20-52 | On a failed load, the list is empty with LoadFailed reported. On a successful load, the file equals the list, and the first display pass over it decides what is armed and whether MalformedTime is raised. The player always starts idle. |
| AlarmClock.SetAlarm | Alaram.py:59-76 | It rejects picker values out of range, and any time at or before the first clock reading, leaving the state unchanged. Otherwise it appends one active entry holding the formatted time and keeps earlier entries in order. If writable, the file equals the new list and what is armed is the display pass over it at the second clock reading. |
| AlarmClock.SetAlarmArmsNewEntry | Alaram.py:65-76 | An accepted alarm is armed by the display pass that follows it exactly when the save succeeds, that pass completes, and the moment is still strictly after the pass's own clock reading. |
| AlarmClock.SetAlarmAtMinuteBoundary | Alaram.py:113-115 | With readings 12:00:59.999999 and 12:01:00.0005, an alarm for 12:01 passes the past-time check and is stored, yet no timer is started for it. |
| AlarmClock.ToggleAlarm | Alaram.py:101-104 | Only the flag of the entry at the given list position changes, and the player is untouched. If writable, the file equals the new list and what is armed is the display pass over it. |
| AlarmClock.ToggleAlarmTwice | Alaram.py:101-104 | Toggling a row twice restores the list, with the file in step with it. |
| AlarmClock.ToggleOffDisarms | Alaram.py:98-104 | Switching an active alarm off means the following pass does not arm it. |
| AlarmClock.DeleteAlarm | Alaram.py:106-109 | If the record is not listed, it raises and changes nothing. Otherwise it removes the first equal entry and keeps the rest in order. If writable, the file equals the new list and what is armed is the display pass over it. |
| AlarmClock.DeleteRow | Alaram.py:94-96 | While the rows on screen reflect the list (after an action whose save succeeded), a row's delete button never raises. It removes that row itself when no earlier row is equal. |
| AlarmClock.StaleRowAfterFailedDelete | Alaram.py:106-109 | When the save inside `delete_alarm` fails, the list loses the record but the file and the rows on screen keep it, and deleting that row again raises. |
| AlarmClock.Fire | Alaram.py:120-123 | A firing timer changes only the player: stop is enabled, and the clip plays if it loads. |
| AlarmClock.StopAlarm | Alaram.py:125-127 | Stop changes only the player: nothing plays and stop is disabled. |
| AlarmClock.PlayerInvariant | Alaram.py:45 | The stop button is enabled exactly while sound plays. This holds at start-up and through every set, toggle and delete, every firing whose clip loads and every stop. |
| Scenarios.ScenarioAddFuture | Alaram.py:59-76 | Starting from an empty store, setting 2060-01-01 09:00 stores one active "2060-01-01 09:00" entry. It arms that entry and reads back identically. |
| Scenarios.ScenarioRejectPast | Alaram.py:65-67 | Setting 2020-01-01 09:00 is rejected as past time with no change. |
| Scenarios.ScenarioToggleOff | Alaram.py:101-104 | Toggling off a future alarm keeps it listed, unarmed, with the file in sync. |
| Scenarios.ScenarioFireThenStop | Alaram.py:120-127 | Firing plays with stop enabled, and stopping returns the player to idle. |

## Left out

- The tkinter interface: widgets, the clock label and the 1-second `update_time` refresh. These have no logic beyond what the actions model.
- AlarmClock.DeleteRow: rows are modelled as list positions. Each row's buttons really hold the record captured at the last display pass, and a failed save in `delete_alarm` skips the rebuild of the rows, so the stale rows then act on their captured records; `AlarmClock.StaleRowAfterFailedDelete` shows one such case.
- AlarmClock.ToggleAlarm: takes a list position, as the rows do while they reflect the list. After a failed save in `delete_alarm`, a stale row's toggle flips its captured record, which may sit at another position or no longer be listed; that is not modelled.
- Threads: `threading.Timer` objects, their concurrency, and the timers that accumulate over repeated display passes because none is cancelled. The model gives only the positions one pass arms. Firing is an action the caller applies.
- pygame audio: mixer initialisation, decoding and looping are foreign calls. Only the two flags and whether the clip loads (a parameter) are kept.
- JSON encoding and the hard-coded file paths. The file is an abstract snapshot, and records are assumed to survive `json.dump`/`json.load` unchanged. A file whose JSON is well-formed but is not a list of `{time, active}` records is treated as unreadable, although the source adopts whatever value it holds. Some such values break a later action; others, such as records with extra keys or with `active` stored as 1 or 0, work throughout.
- Store.Save: a write either replaces the whole file or leaves it untouched. A partly written or truncated file after a failed write is not modelled.
- `datetime.now()`: the clock readings are parameters. `set_alarm`'s past-time check and the closing display pass get separate readings, but one reading serves the whole pass. The source reads the clock again inside each `schedule_alarm` call, microseconds apart.
- Moments.DelayPositiveIffAfter: the delay is the exact integer microsecond difference. The float `total_seconds()` result is not modelled. Converting a nonzero whole number of microseconds to seconds cannot change its sign.
- Calendar date parsing (`%m/%d/%y` of the widget's locale string): the picked date arrives as a valid date. The two-digit-year interpretation is not modelled: `%y` maps every picked year into 1969–2068, so picking 2099 yields 1999, which is then rejected as past. The model takes the year as picked.
- AlarmClock.SetAlarm: picker text that is not an integer at all (where `int()` raises) is not modelled. Only integers outside 0–23 and 0–59 are, as BadTimeField.
- TimeFormat.Parse: accepts only the zero-padded 16-character layout of ASCII digits that `Format` writes. `strptime` also accepts single-digit month, day, hour and minute fields, a space-padded day such as " 1", any run of whitespace in place of the single space, and non-ASCII decimal digits. Text in those forms, which the source would parse, is reported here as MalformedTime and stops the display pass. `Format` never writes such text.
- TimeFormat.Format: years below 1000 are zero-padded to four digits. `strftime`'s padding of such years depends on the platform.
- Error dialogs are error values. A MalformedTime error during start-up, which aborts the constructor in the source, is reported like any other error.

=== FILE: alarm_clock.dfy ===
/** The `AlarmClock` application core as a sequential state machine: the alarm list, the alarm
    file and the sound player, changed by the user's actions and the timer callback. Every
    list action saves the whole list and then re-runs the display pass that arms timers. */
module AlarmClock {
  import opened Wrappers
  import opened Moments
  import opened TimeFormat
  import opened AlarmList
  import opened Scheduler
  import opened Store
  import opened SoundPlayer

  /** The state the core touches. */
  datatype Clock = Clock(alarms: seq<Alarm>, disk: Disk, player: Player)

  /** What can go wrong during an action: the two error dialogs and the uncaught exceptions. */
  datatype Error =
    | LoadFailed     // "Could not load alarms" dialog at start-up
    | BadTimeField   // hour or minute outside the picker ranges: `strptime` raises
    | PastTime       // "Cannot set alarm for past time." dialog
    | NotListed      // `list.remove` raises: no entry equals the one to delete
    | SaveFailed     // writing the alarm file raises; the list change is kept
    | MalformedTime  // `schedule_alarm` cannot parse an active entry's time and raises

  /** The outcome of one action: the state after it, the list positions its closing display
      pass armed a timer for, and the error it reported or raised, if any. */
  datatype Reply = Reply(next: Clock, armed: seq<nat>, error: Option<Error>)

  /** The alarm file holds exactly the in-memory list. */
  predicate InSync(c: Clock) {
    c.disk.content == Some(c.alarms)
  }

  /** The closing `display_alarms` pass of an action, over the state `c`. */
  function Refresh(c: Clock, now: Instant): (r: Reply)
    requires ValidInstant(now)
    ensures r.next == c
    ensures r.error.None? || r.error == Some(MalformedTime)
    ensures r.error == Some(MalformedTime) <==> FirstMalformed(c.alarms, 0) < |c.alarms|
    ensures forall j :: 0 <= j < |c.alarms| ==>
      (j in r.armed <==>
         && j < FirstMalformed(c.alarms, 0)
         && c.alarms[j].active && Parse(c.alarms[j].time).Some? && After(Parse(c.alarms[j].time).value, now))
  {
    var p := Display(c.alarms, now);
    DisplayArms(c.alarms, now);
    Reply(c, p.armed, if p.crashed then Some(MalformedTime) else None)
  }

  /** The tail shared by set, toggle and delete: adopt the new list, save it, re-display. */
  function Commit(c: Clock, alarms: seq<Alarm>, now: Instant): (r: Reply)
    requires ValidInstant(now)
    ensures r.next.alarms == alarms && r.next.player == c.player
    ensures c.disk.writable ==> InSync(r.next) && r.error != Some(SaveFailed)
    ensures c.disk.writable ==>
      && r.armed == Display(alarms, now).armed
      && (r.error.None? || r.error == Some(MalformedTime))
      && (r.error == Some(MalformedTime) <==> Display(alarms, now).crashed)
    ensures !c.disk.writable ==> r.next.disk == c.disk && r.error == Some(SaveFailed) && r.armed == []
  {
    match Save(c.disk, alarms)
    case None => Reply(c.(alarms := alarms), [], Some(SaveFailed))
    case Some(d) => Refresh(Clock(alarms, d, c.player), now)
  }

  /** Start-up: the list starts empty, `load_alarms` replaces it with the file's list when the
      file can be read, the player is idle, and the first display pass arms timers. */
  function Start(disk: Disk, now: Instant): (r: Reply)
    requires ValidInstant(now)
    ensures r.next.player == Initial && r.next.disk == disk
    ensures disk.content.None? ==> r.next.alarms == [] && r.armed == [] && r.error == Some(LoadFailed)
    ensures disk.content.Some? ==> InSync(r.next) && r.error != Some(LoadFailed)
    ensures disk.content.Some? ==>
      && r.armed == Display(r.next.alarms, now).armed
      && (r.error.None? || r.error == Some(MalformedTime))
      && (r.error == Some(MalformedTime) <==> Display(r.next.alarms, now).crashed)
  {
    var loaded := Load(disk);
    var c := Clock(loaded.alarms, disk, Initial);
    if loaded.failed then Reply(c, [], Some(LoadFailed)) else Refresh(c, now)
  }

  /** The picked hour and minute are within the picker ranges, so `strptime` accepts them. */
  predicate FieldsInRange(hour: int, minute: int) {
    0 <= hour < 24 && 0 <= minute < 60
  }

  /** `set_alarm` with the calendar's date and the pickers' hour and minute. The past-time
      check reads the clock as `now`; the display pass at the end of the action reads it again
      as `later`, since `schedule_alarm` calls `datetime.now()` afresh. */
  function SetAlarm(c: Clock, year: int, month: int, day: int, hour: int, minute: int,
                    now: Instant, later: Instant): (r: Reply)
    requires ValidDate(year, month, day) && ValidInstant(now) && ValidInstant(later)
    ensures r.error == Some(BadTimeField) <==> !FieldsInRange(hour, minute)
    ensures FieldsInRange(hour, minute) ==>
      (r.error == Some(PastTime) <==> !After(Moment(year, month, day, hour, minute), now))
    ensures r.error == Some(BadTimeField) || r.error == Some(PastTime) ==> r.next == c && r.armed == []
    ensures FieldsInRange(hour, minute) && After(Moment(year, month, day, hour, minute), now) ==>
      var m := Moment(year, month, day, hour, minute);
      && |r.next.alarms| == |c.alarms| + 1
      && r.next.alarms[..|c.alarms|] == c.alarms
      && r.next.alarms[|c.alarms|] == Alarm(Format(m), true)
      && r.next.player == c.player
      && (c.disk.writable ==> InSync(r.next))
      && (c.disk.writable ==> r.armed == Display(r.next.alarms, later).armed)
  {
    if !FieldsInRange(hour, minute) then Reply(c, [], Some(BadTimeField))
    else
      var m := Moment(year, month, day, hour, minute);
      if !After(m, now) then Reply(c, [], Some(PastTime))
      else
        var alarms := c.alarms + [Alarm(Format(m), true)];
        assert alarms[..|c.alarms|] == c.alarms;
        Commit(c, alarms, later)
  }

  /** An accepted alarm is armed by the display pass that follows it exactly when that pass
      completes and the moment is still strictly after the pass's own clock reading `later`.
      The stored text parses back to the chosen moment, so the new entry never stops the pass;
      passing the past-time check at `now` alone does not make it armed. */
  lemma SetAlarmArmsNewEntry(c: Clock, year: int, month: int, day: int, hour: int, minute: int,
                             now: Instant, later: Instant)
    requires ValidDate(year, month, day) && ValidInstant(now) && ValidInstant(later)
    requires FieldsInRange(hour, minute) && After(Moment(year, month, day, hour, minute), now)
    ensures var r := SetAlarm(c, year, month, day, hour, minute, now, later);
      |c.alarms| in r.armed <==> r.error.None? && After(Moment(year, month, day, hour, minute), later)
  {
    var r := SetAlarm(c, year, month, day, hour, minute, now, later);
    var m := Moment(year, month, day, hour, minute);
    var alarms := r.next.alarms;
    var n := |c.alarms|;
    ParseFormat(m);
    assert !Malformed(alarms[n]);
    if c.disk.writable {
      DisplayArms(alarms, later);
      DelayPositiveIffAfter(m, later);
      assert r.armed == Display(alarms, later).armed;
      if FirstMalformed(alarms, 0) < |alarms| {
        assert FirstMalformed(alarms, 0) < n;
      }
    }
  }

  /** The two clock readings of one `set_alarm` a millisecond apart across a minute boundary:
      an alarm for 12:01 set at 12:00:59.999999 passes the past-time check, yet the display pass
      at 12:01:00.0005 finds a non-positive delay and starts no timer for it. */
  lemma SetAlarmAtMinuteBoundary(c: Clock)
    requires c.alarms == [] && c.disk.writable
    ensures var now := Instant(Moment(2026, 10, 10, 12, 0), 59, 999999);
      var later := Instant(Moment(2026, 10, 10, 12, 1), 0, 500);
      var r := SetAlarm(c, 2026, 10, 10, 12, 1, now, later);
      && InstantBefore(now, later)
      && r.error.None?
      && r.next.alarms == [Alarm("2026-10-10 12:01", true)]
      && r.armed == []
  {
    var now := Instant(Moment(2026, 10, 10, 12, 0), 59, 999999);
    var later := Instant(Moment(2026, 10, 10, 12, 1), 0, 500);
    var m := Moment(2026, 10, 10, 12, 1);
    assert After(m, now) && !After(m, later);
    var r := SetAlarm(c, 2026, 10, 10, 12, 1, now, later);
    var alarms := [Alarm(Format(m), true)];
    assert r.next.alarms == alarms;
    ParseFormat(m);
    assert !Malformed(alarms[0]);
    assert FirstMalformed(alarms, 0) == 1;
    PassFromCrashes(alarms, 0, later);
    SetAlarmArmsNewEntry(c, 2026, 10, 10, 12, 1, now, later);
    assert r.armed == Display(alarms, later).armed;
    FormatBoundaryMoment();
  }

  /** The stored text of the boundary scenario's alarm moment. */
  lemma FormatBoundaryMoment()
    ensures ValidMoment(Moment(2026, 10, 10, 12, 1))
    ensures Format(Moment(2026, 10, 10, 12, 1)) == "2026-10-10 12:01"
  {
  }

  /** `toggle_alarm` on the entry at list position `i`. */
  function ToggleAlarm(c: Clock, i: nat, now: Instant): (r: Reply)
    requires i < |c.alarms| && ValidInstant(now)
    ensures |r.next.alarms| == |c.alarms|
    ensures r.next.alarms[i] == Alarm(c.alarms[i].time, !c.alarms[i].active)
    ensures forall j :: 0 <= j < |c.alarms| && j != i ==> r.next.alarms[j] == c.alarms[j]
    ensures r.next.player == c.player
    ensures c.disk.writable ==> InSync(r.next) && r.armed == Display(r.next.alarms, now).armed
    ensures r.error.None? || r.error == Some(SaveFailed) || r.error == Some(MalformedTime)
  {
    Commit(c, Toggle(c.alarms, i), now)
  }

  /** Toggling the same row twice restores the list, and the file then holds it again. */
  lemma ToggleAlarmTwice(c: Clock, i: nat, now: Instant)
    requires i < |c.alarms| && ValidInstant(now) && c.disk.writable
    ensures var once := ToggleAlarm(c, i, now).next;
      && i < |once.alarms|
      && ToggleAlarm(once, i, now).next.alarms == c.alarms
      && InSync(ToggleAlarm(once, i, now).next)
  {
    var once := ToggleAlarm(c, i, now).next;
    ToggleTwice(c.alarms, i);
  }

  /** Switching an alarm off means the display pass after it does not arm that row. */
  lemma ToggleOffDisarms(c: Clock, i: nat, now: Instant)
    requires i < |c.alarms| && ValidInstant(now) && c.alarms[i].active
    ensures i !in ToggleAlarm(c, i, now).armed
  {
    var r := ToggleAlarm(c, i, now);
    if c.disk.writable {
      DisplayNeverArmsPastOrInactive(r.next.alarms, now, i);
    }
  }

  /** `delete_alarm` with the record shown on a row: `list.remove` of that record. */
  function DeleteAlarm(c: Clock, a: Alarm, now: Instant): (r: Reply)
    requires ValidInstant(now)
    ensures a !in c.alarms ==> r == Reply(c, [], Some(NotListed))
    ensures a in c.alarms ==>
      var j := IndexOf(c.alarms, a);
      && |r.next.alarms| == |c.alarms| - 1
      && r.next.alarms == c.alarms[..j] + c.alarms[j + 1..]
      && multiset(r.next.alarms) == multiset(c.alarms) - multiset{a}
      && r.next.player == c.player
      && (c.disk.writable ==> InSync(r.next) && r.armed == Display(r.next.alarms, now).armed)
  {
    match RemoveFirst(c.alarms, a)
    case None => Reply(c, [], Some(NotListed))
    case Some(rest) =>
      RemoveFirstEntries(c.alarms, a);
      Commit(c, rest, now)
  }

  /** While the rows on screen show the current list, the delete button of row `i` never
      raises, and it removes row `i` itself whenever no earlier row holds an equal record. */
  lemma DeleteRow(c: Clock, i: nat, now: Instant)
    requires i < |c.alarms| && ValidInstant(now)
    ensures DeleteAlarm(c, c.alarms[i], now).error != Some(NotListed)
    ensures (forall k :: 0 <= k < i ==> c.alarms[k] != c.alarms[i]) ==>
      DeleteAlarm(c, c.alarms[i], now).next.alarms == c.alarms[..i] + c.alarms[i + 1..]
  {
    RemoveRowFound(c.alarms, i);
    if forall k :: 0 <= k < i ==> c.alarms[k] != c.alarms[i] {
      RemoveUniqueRow(c.alarms, i);
    }
  }

  /** After a failed save in `delete_alarm` the rows are not rebuilt: the list has lost the
      record, yet its row is still shown, and pressing that row's delete button again raises. */
  lemma StaleRowAfterFailedDelete(x: Alarm, y: Alarm, now: Instant)
    requires ValidInstant(now) && x != y
    ensures var c := Clock([x, y], Disk(Some([x, y]), false), Initial);
      var r := DeleteAlarm(c, x, now);
      && r.error == Some(SaveFailed)
      && r.next.alarms == [y]
      && r.next.disk.content == Some([x, y])
      && DeleteAlarm(r.next, x, now).error == Some(NotListed)
  {
    var c := Clock([x, y], Disk(Some([x, y]), false), Initial);
    assert c.alarms[0] == x;
    var r := DeleteAlarm(c, x, now);
    assert r.next.alarms == [x, y][1..];
  }

  /** A timer fires: `play_alarm_sound`. `clipLoads` is whether the sound file loads. */
  function Fire(c: Clock, clipLoads: bool): (r: Clock)
    ensures r.alarms == c.alarms && r.disk == c.disk
    ensures r.player.stopEnabled
    ensures r.player.playing <==> clipLoads || c.player.playing
  {
    c.(player := Play(c.player, clipLoads))
  }

  /** The stop button: `stop_alarm_sound`. */
  function StopAlarm(c: Clock): (r: Clock)
    ensures r.alarms == c.alarms && r.disk == c.disk
    ensures !r.player.playing && !r.player.stopEnabled
  {
    c.(player := Stop(c.player))
  }

  /** The stop button is enabled exactly while the clip plays, from start-up on, through every
      list action (set, toggle, delete), every timer whose clip loads, and every press of stop;
      stopping twice is the same as stopping once. */
  lemma PlayerInvariant(c: Clock, now: Instant, later: Instant, disk: Disk)
    requires ValidInstant(now) && ValidInstant(later) && Consistent(c.player)
    ensures Consistent(Start(disk, now).next.player)
    ensures forall y, mo, d, h, mi :: ValidDate(y, mo, d) ==>
      Consistent(SetAlarm(c, y, mo, d, h, mi, now, later).next.player)
    ensures Consistent(Fire(c, true).player) && Fire(c, true).player.playing
    ensures Consistent(StopAlarm(c).player)
    ensures StopAlarm(StopAlarm(c)) == StopAlarm(c)
    ensures forall i :: 0 <= i < |c.alarms| ==> Consistent(ToggleAlarm(c, i, now).next.player)
    ensures forall a :: Consistent(DeleteAlarm(c, a, now).next.player)
  {
    InitialConsistent();
    PlayConsistent(c.player);
    StopIdempotent(c.player);
  }
}

=== FILE: alarm_list.dfy ===
/** The in-memory alarm list: an ordered sequence of `{time, active}` records, with the
    flip of one entry's `active` flag and `list.remove`'s removal of the first equal entry. */
module AlarmList {
  import opened Wrappers

  /** One alarm record as stored: the trigger moment in its text form, and whether it is on. */
  datatype Alarm = Alarm(time: string, active: bool)

  /** `toggle_alarm`'s flip of the `active` flag of entry `i`, in place. */
  function Toggle(alarms: seq<Alarm>, i: nat): (r: seq<Alarm>)
    requires i < |alarms|
    ensures |r| == |alarms|
    ensures r[i].time == alarms[i].time && r[i].active != alarms[i].active
    ensures forall j :: 0 <= j < |r| && j != i ==> r[j] == alarms[j]
  {
    alarms[i := alarms[i].(active := !alarms[i].active)]
  }

  /** Toggling the same entry twice restores the list. */
  lemma ToggleTwice(alarms: seq<Alarm>, i: nat)
    requires i < |alarms|
    ensures Toggle(Toggle(alarms, i), i) == alarms
  {
  }

  /** Position of the first entry equal to `a`, or `|alarms|` when there is none. */
  function IndexOf(alarms: seq<Alarm>, a: Alarm): (j: nat)
    ensures j <= |alarms|
    ensures j < |alarms| <==> a in alarms
    ensures j < |alarms| ==> alarms[j] == a
    ensures forall k :: 0 <= k < j ==> alarms[k] != a
  {
    if |alarms| == 0 then 0
    else if alarms[0] == a then 0
    else 1 + IndexOf(alarms[1..], a)
  }

  /** `list.remove(a)`: scans from the front and drops the first entry equal to `a`;
      None is the ValueError raised when no entry is equal to `a`. */
  function RemoveFirst(alarms: seq<Alarm>, a: Alarm): (r: Option<seq<Alarm>>)
    ensures r.None? <==> a !in alarms
    ensures r.Some? ==>
      var j := IndexOf(alarms, a);
      r.value == alarms[..j] + alarms[j + 1..]
  {
    if |alarms| == 0 then None
    else if alarms[0] == a then Some(alarms[1..])
    else
      assert a in alarms <==> a in alarms[1..] by {
        assert alarms == [alarms[0]] + alarms[1..];
      }
      match RemoveFirst(alarms[1..], a)
      case None => None
      case Some(rest) =>
        assert IndexOf(alarms, a) == IndexOf(alarms[1..], a) + 1;
        ConsWithoutIndex(alarms, IndexOf(alarms[1..], a));
        Some([alarms[0]] + rest)
  }

  /** Removing position `j` of the tail and putting the head back removes position `j + 1`. */
  lemma ConsWithoutIndex(alarms: seq<Alarm>, j: nat)
    requires j + 1 < |alarms|
    ensures [alarms[0]] + (alarms[1..][..j] + alarms[1..][j + 1..]) == alarms[..j + 1] + alarms[j + 2..]
  {
    assert alarms[1..][..j] == alarms[1..j + 1];
    assert alarms[1..][j + 1..] == alarms[j + 2..];
    assert [alarms[0]] + alarms[1..j + 1] == alarms[..j + 1];
  }

  /** A successful removal takes out exactly one copy of `a` and nothing else. */
  lemma RemoveFirstEntries(alarms: seq<Alarm>, a: Alarm)
    requires a in alarms
    ensures RemoveFirst(alarms, a).Some?
    ensures |RemoveFirst(alarms, a).value| == |alarms| - 1
    ensures multiset(RemoveFirst(alarms, a).value) == multiset(alarms) - multiset{a}
  {
    var j := IndexOf(alarms, a);
    MultisetWithoutRow(alarms, j);
  }

  /** The entry at row `i` is always found, so the delete button of a row never raises. */
  lemma RemoveRowFound(alarms: seq<Alarm>, i: nat)
    requires i < |alarms|
    ensures RemoveFirst(alarms, alarms[i]).Some?
    ensures IndexOf(alarms, alarms[i]) <= i
  {
  }

  /** Deleting row `i` by value removes an entry equal to row `i`: the remaining entries are
      those of the list without row `i`, counted with multiplicity. */
  lemma RemoveRowSameEntries(alarms: seq<Alarm>, i: nat)
    requires i < |alarms|
    ensures RemoveFirst(alarms, alarms[i]).Some?
    ensures multiset(RemoveFirst(alarms, alarms[i]).value) == multiset(alarms[..i] + alarms[i + 1..])
  {
    RemoveFirstEntries(alarms, alarms[i]);
    MultisetWithoutRow(alarms, i);
  }

  lemma MultisetWithoutRow(alarms: seq<Alarm>, i: nat)
    requires i < |alarms|
    ensures multiset(alarms) - multiset{alarms[i]} == multiset(alarms[..i] + alarms[i + 1..])
  {
    var pre, x, post := alarms[..i], alarms[i], alarms[i + 1..];
    assert alarms == pre + [x] + post;
    assert multiset(alarms) == multiset(pre) + multiset{x} + multiset(post);
    assert multiset(pre + post) == multiset(pre) + multiset(post);
  }

  /** When no earlier row equals row `i`, deleting it by value removes exactly row `i`. */
  lemma RemoveUniqueRow(alarms: seq<Alarm>, i: nat)
    requires i < |alarms|
    requires forall k :: 0 <= k < i ==> alarms[k] != alarms[i]
    ensures RemoveFirst(alarms, alarms[i]) == Some(alarms[..i] + alarms[i + 1..])
  {
    assert IndexOf(alarms, alarms[i]) == i;
  }

  /** With equal records on rows 0 and 2 and a different one between, the delete button of
      row 2 removes row 0: the survivors are the same but in a different order. */
  lemma RemoveDuplicateRowReorders(x: Alarm, y: Alarm)
    requires x != y
    ensures RemoveFirst([x, y, x], x) == Some([y, x])
    ensures [x, y, x][..2] + [x, y, x][3..] == [x, y]
    ensures [y, x] != [x, y]
  {
    var s := [x, y, x];
    assert s[0] == x;
    assert s[1..] == [y, x];
  }
}

=== FILE: moments.dfy ===
/** Naive local date-times at minute resolution (the trigger moment of an alarm), the
    wall-clock reading they are compared with, and their chronological order. Dates follow
    the proleptic Gregorian calendar with years 1 to 9999, as the standard `datetime` does. */
module Moments {

  /** A trigger moment: what parsing `YYYY-MM-DD HH:MM` yields (seconds are zero). */
  datatype Moment = Moment(year: int, month: int, day: int, hour: int, minute: int)

  /** A reading of the wall clock: the minute it falls in, plus its seconds and microseconds. */
  datatype Instant = Instant(at: Moment, second: int, micro: int)

  predicate IsLeapYear(y: int) {
    y % 4 == 0 && (y % 100 != 0 || y % 400 == 0)
  }

  function DaysInYear(y: int): int {
    if IsLeapYear(y) then 366 else 365
  }

  function DaysInMonth(year: int, month: int): (n: int)
    requires 1 <= month <= 12
    ensures 28 <= n <= 31
    ensures n == 29 <==> month == 2 && IsLeapYear(year)
  {
    if month == 2 then (if IsLeapYear(year) then 29 else 28)
    else if month == 4 || month == 6 || month == 9 || month == 11 then 30
    else 31
  }

  predicate ValidDate(year: int, month: int, day: int) {
    && 1 <= year <= 9999
    && 1 <= month <= 12
    && 1 <= day <= DaysInMonth(year, month)
  }

  /** A moment `datetime` can represent, with the hour and minute ranges of the time pickers. */
  predicate ValidMoment(m: Moment) {
    && ValidDate(m.year, m.month, m.day)
    && 0 <= m.hour < 24
    && 0 <= m.minute < 60
  }

  predicate ValidInstant(t: Instant) {
    ValidMoment(t.at) && 0 <= t.second < 60 && 0 <= t.micro < 1000000
  }

  /** Chronological order of moments: fields compared most significant first. */
  predicate Before(a: Moment, b: Moment) {
    if a.year != b.year then a.year < b.year
    else if a.month != b.month then a.month < b.month
    else if a.day != b.day then a.day < b.day
    else if a.hour != b.hour then a.hour < b.hour
    else a.minute < b.minute
  }

  /** `m`, whose seconds and microseconds are zero, lies strictly after the clock reading `now`:
      the negation of the `alarm_time <= now` comparison, field by field down to the microsecond. */
  predicate After(m: Moment, now: Instant) {
    || Before(now.at, m)
    || (now.at == m && (now.second < 0 || (now.second == 0 && now.micro < 0)))
  }

  lemma BeforeTrichotomy(a: Moment, b: Moment)
    ensures Before(a, b) || a == b || Before(b, a)
    ensures !(Before(a, b) && Before(b, a))
  {
  }

  /** Clock reading `a` comes strictly before clock reading `b`. */
  predicate InstantBefore(a: Instant, b: Instant) {
    || Before(a.at, b.at)
    || (a.at == b.at && (a.second < b.second || (a.second == b.second && a.micro < b.micro)))
  }

  /** A valid clock reading never has negative seconds, so a moment is after it exactly when it
      is after the minute the reading falls in: comparing against the truncated minute is exact. */
  lemma AfterIsAfterMinute(m: Moment, now: Instant)
    requires ValidInstant(now)
    ensures After(m, now) <==> Before(now.at, m)
  {
  }

  // ---------------------------------------------------------------------------------------
  // Ordinals: the integer count `datetime` subtracts when it computes `alarm_time - now`.

  /** Days in the years before `y`: 365 each, plus the Gregorian leap days. */
  function DaysBeforeYear(y: int): int
    requires y >= 1
  {
    var k := y - 1;
    k * 365 + k / 4 - k / 100 + k / 400
  }

  /** Days in the months of year `y` before `month`. */
  function DaysBeforeMonth(y: int, month: int): int
    requires 1 <= month <= 12
  {
    var base :=
      if month == 1 then 0 else if month == 2 then 31 else if month == 3 then 59
      else if month == 4 then 90 else if month == 5 then 120 else if month == 6 then 151
      else if month == 7 then 181 else if month == 8 then 212 else if month == 9 then 243
      else if month == 10 then 273 else if month == 11 then 304 else 334;
    base + (if month > 2 && IsLeapYear(y) then 1 else 0)
  }

  /** Day number of a date, day 1 being 0001-01-01. */
  function DayOrdinal(year: int, month: int, day: int): int
    requires 1 <= year && 1 <= month <= 12
  {
    DaysBeforeYear(year) + DaysBeforeMonth(year, month) + day
  }

  /** Minute number of a moment on the same scale. */
  function MinuteOrdinal(m: Moment): int
    requires 1 <= m.year && 1 <= m.month <= 12
  {
    DayOrdinal(m.year, m.month, m.day) * 1440 + m.hour * 60 + m.minute
  }

  /** Whether year `y` adds one to the count of multiples of 4 (likewise 100, 400) below it. */
  lemma DivStep4(y: int)
    requires y >= 1
    ensures y / 4 - (y - 1) / 4 == (if y % 4 == 0 then 1 else 0)
  {
  }

  lemma DivStep100(y: int)
    requires y >= 1
    ensures y / 100 - (y - 1) / 100 == (if y % 100 == 0 then 1 else 0)
  {
  }

  lemma DivStep400(y: int)
    requires y >= 1
    ensures y / 400 - (y - 1) / 400 == (if y % 400 == 0 then 1 else 0)
  {
  }

  /** The step from one year to the next, term by term. */
  lemma DaysBeforeYearStep(y: int)
    requires y >= 1
    ensures DaysBeforeYear(y + 1) - DaysBeforeYear(y)
            == 365 + (y / 4 - (y - 1) / 4) - (y / 100 - (y - 1) / 100) + (y / 400 - (y - 1) / 400)
  {
  }

  /** A multiple of 100 is a multiple of 4. */
  lemma Multiple100(y: int)
    requires y % 100 == 0
    ensures y % 4 == 0
  {
    var q := y / 100;
    assert y == 4 * (25 * q);
  }

  /** A multiple of 400 is a multiple of 100. */
  lemma Multiple400(y: int)
    requires y % 400 == 0
    ensures y % 100 == 0
  {
    var q := y / 400;
    assert y == 100 * (4 * q);
  }

  /** Consecutive years are as far apart as the earlier year is long. */
  lemma DaysBeforeNextYear(y: int)
    requires y >= 1
    ensures DaysBeforeYear(y + 1) == DaysBeforeYear(y) + DaysInYear(y)
  {
    DaysBeforeYearStep(y);
    DivStep4(y);
    DivStep100(y);
    DivStep400(y);
    if y % 400 == 0 {
      Multiple400(y);
    }
    if y % 100 == 0 {
      Multiple100(y);
    }
  }

  /** Every day of year `a` comes before the first day of any later year `b`. */
  lemma {:induction false} DaysBeforeYearGrows(a: int, b: int)
    requires 1 <= a < b
    ensures DaysBeforeYear(a) + DaysInYear(a) <= DaysBeforeYear(b)
    decreases b - a
  {
    DaysBeforeNextYear(a);
    if a + 1 < b {
      DaysBeforeYearGrows(a + 1, b);
    }
  }

  /** The last day of a month still lies inside its year. */
  lemma MonthInsideYear(y: int, month: int)
    requires 1 <= month <= 12
    ensures DaysBeforeMonth(y, month) + DaysInMonth(y, month) <= DaysInYear(y)
  {
  }

  /** Every day of month `a` comes before the first day of a later month `b` of the same year. */
  lemma MonthBeforeLaterMonth(y: int, a: int, b: int)
    requires 1 <= a < b <= 12
    ensures DaysBeforeMonth(y, a) + DaysInMonth(y, a) <= DaysBeforeMonth(y, b)
  {
  }

  /** On valid moments the minute ordinal is strictly monotone in chronological order. */
  lemma BeforeMeansSmallerOrdinal(a: Moment, b: Moment)
    requires ValidMoment(a) && ValidMoment(b) && Before(a, b)
    ensures MinuteOrdinal(a) < MinuteOrdinal(b)
  {
    if a.year != b.year {
      MonthInsideYear(a.year, a.month);
      DaysBeforeYearGrows(a.year, b.year);
      assert DayOrdinal(a.year, a.month, a.day) < DayOrdinal(b.year, b.month, b.day);
    } else if a.month != b.month {
      MonthBeforeLaterMonth(a.year, a.month, b.month);
      assert DayOrdinal(a.year, a.month, a.day) < DayOrdinal(b.year, b.month, b.day);
    }
  }

  /** Chronological order on valid moments is exactly the order of their minute ordinals. */
  lemma OrdinalOrder(a: Moment, b: Moment)
    requires ValidMoment(a) && ValidMoment(b)
    ensures Before(a, b) <==> MinuteOrdinal(a) < MinuteOrdinal(b)
    ensures a == b <==> MinuteOrdinal(a) == MinuteOrdinal(b)
  {
    BeforeTrichotomy(a, b);
    if Before(a, b) {
      BeforeMeansSmallerOrdinal(a, b);
    } else if Before(b, a) {
      BeforeMeansSmallerOrdinal(b, a);
    }
  }

  /** `(m - now).total_seconds()` scaled to whole microseconds: the exact timedelta between the
      moment (at zero seconds) and the clock reading. */
  function DelayMicros(m: Moment, now: Instant): (d: int)
    requires 1 <= m.year && 1 <= m.month <= 12
    requires 1 <= now.at.year && 1 <= now.at.month <= 12
    ensures ValidInstant(now) ==>
      var gap := (MinuteOrdinal(m) - MinuteOrdinal(now.at)) * 60000000;
      gap - 60000000 < d <= gap
    ensures ValidInstant(now) && now.second == 0 && now.micro == 0 ==>
      d == (MinuteOrdinal(m) - MinuteOrdinal(now.at)) * 60000000
  {
    (MinuteOrdinal(m) - MinuteOrdinal(now.at)) * 60000000 - now.second * 1000000 - now.micro
  }

  /** The delay `schedule_alarm` computes is positive exactly when the moment is after the clock
      reading, so its `delay <= 0` check agrees with `set_alarm`'s `alarm_time <= now` check. */
  lemma DelayPositiveIffAfter(m: Moment, now: Instant)
    requires ValidMoment(m) && ValidInstant(now)
    ensures DelayMicros(m, now) > 0 <==> After(m, now)
  {
    OrdinalOrder(now.at, m);
    OrdinalOrder(m, now.at);
  }
}

=== FILE: scenarios.dfy ===
/** Concrete runs of the state machine: adding a future alarm, rejecting a past one, switching
    one off, and a timer firing followed by the stop button. */
module Scenarios {
  import opened Wrappers
  import opened Moments
  import opened TimeFormat
  import opened AlarmList
  import opened Scheduler
  import opened Store
  import opened SoundPlayer
  import opened AlarmClock

  /** 2026-10-10 12:00:30 on the wall clock. */
  const Noon: Instant := Instant(Moment(2026, 10, 10, 12, 0), 30, 0)

  /** One second later: the display pass's own reading of the clock. */
  const NoonLater: Instant := Instant(Moment(2026, 10, 10, 12, 0), 31, 0)

  /** An empty, writable alarm file. */
  const EmptyFile: Disk := Disk(Some([]), true)

  /** Setting 2060-01-01 09:00 on an empty store gives one active entry stored as
      "2060-01-01 09:00", arms it, and the file reads back the same single entry. */
  lemma ScenarioAddFuture()
    ensures var c := Start(EmptyFile, Noon).next;
      var r := SetAlarm(c, 2060, 1, 1, 9, 0, Noon, NoonLater);
      && r.error.None?
      && r.next.alarms == [Alarm("2060-01-01 09:00", true)]
      && r.armed == [0]
      && Load(r.next.disk) == Loaded(r.next.alarms, false)
  {
    var c := Start(EmptyFile, Noon).next;
    var m := Moment(2060, 1, 1, 9, 0);
    assert Format(m) == "2060-01-01 09:00";
    var r := SetAlarm(c, 2060, 1, 1, 9, 0, Noon, NoonLater);
    assert r.next.alarms == [Alarm("2060-01-01 09:00", true)];
    ParseFormat(m);
    DelayPositiveIffAfter(m, NoonLater);
    assert Armable(r.next.alarms[0], NoonLater);
    assert Display(r.next.alarms, NoonLater) == PassFrom(r.next.alarms, 0, NoonLater);
    assert PassFrom(r.next.alarms, 1, NoonLater) == Pass([], false);
  }

  /** Setting 2020-01-01 09:00 is rejected as past and changes nothing. */
  lemma ScenarioRejectPast(c: Clock)
    ensures var r := SetAlarm(c, 2020, 1, 1, 9, 0, Noon, NoonLater);
      r.error == Some(PastTime) && r.next == c && r.armed == []
  {
  }

  /** A writable file holding one future alarm. */
  const OneAlarmFile: Disk := Disk(Some([Alarm("2060-01-01 09:00", true)]), true)

  /** After starting from a file with one future alarm, switching it off keeps it listed but
      leaves it unarmed. */
  lemma ScenarioToggleOff()
    ensures var c := Start(OneAlarmFile, Noon).next;
      var r := ToggleAlarm(c, 0, Noon);
      && r.next.alarms == [Alarm("2060-01-01 09:00", false)]
      && r.armed == []
      && InSync(r.next)
  {
    var c := Start(OneAlarmFile, Noon).next;
    assert c.alarms == [Alarm("2060-01-01 09:00", true)];
    ToggleOffDisarms(c, 0, Noon);
    var r := ToggleAlarm(c, 0, Noon);
    assert r.next.alarms == [Alarm("2060-01-01 09:00", false)];
  }

  /** A firing timer starts playback and enables stop; stop returns the player to idle. */
  lemma ScenarioFireThenStop(c: Clock)
    requires c.player == Initial
    ensures Fire(c, true).player == Player(true, true)
    ensures StopAlarm(Fire(c, true)).player == Initial
  {
  }
}

=== FILE: scheduler.dfy ===
/** Which alarms a display pass arms. `display_alarms` walks the list in order and calls
    `schedule_alarm` on every active entry; that parses the entry's time and starts a one-shot
    timer only when the delay to it is positive. */
module Scheduler {
  import opened Wrappers
  import opened Moments
  import opened TimeFormat
  import opened AlarmList

  /** `schedule_alarm` starts a timer for `alarm` at clock reading `now`: the entry is active,
      its time parses, and the delay to that moment is positive. */
  predicate Armable(alarm: Alarm, now: Instant)
    requires ValidInstant(now)
    ensures Armable(alarm, now) <==>
      alarm.active && Parse(alarm.time).Some? && After(Parse(alarm.time).value, now)
  {
    match Parse(alarm.time)
    case None => false
    case Some(m) =>
      DelayPositiveIffAfter(m, now);
      alarm.active && DelayMicros(m, now) > 0
  }

  /** An active entry whose time does not parse: `schedule_alarm` raises on it. */
  predicate Malformed(alarm: Alarm) {
    alarm.active && Parse(alarm.time).None?
  }

  /** The rule in the system's own terms: an alarm is armed exactly when it is active and its
      trigger moment lies strictly after now. */
  lemma ArmableIffActiveAndFuture(alarm: Alarm, now: Instant)
    requires ValidInstant(now)
    ensures Armable(alarm, now) <==>
      alarm.active && Parse(alarm.time).Some? && After(Parse(alarm.time).value, now)
  {
    if Parse(alarm.time).Some? {
      FormatParse(alarm.time);
      DelayPositiveIffAfter(Parse(alarm.time).value, now);
    }
  }

  /** What one display pass did: the list positions it armed a timer for, in the order it
      armed them, and whether it stopped early on an entry whose time did not parse. */
  datatype Pass = Pass(armed: seq<nat>, crashed: bool)

  predicate Increasing(xs: seq<nat>) {
    forall k, l :: 0 <= k < l < |xs| ==> xs[k] < xs[l]
  }

  /** The first active entry whose time does not parse at or after `i`, or `|alarms|`. */
  function FirstMalformed(alarms: seq<Alarm>, i: nat): (j: nat)
    requires i <= |alarms|
    ensures i <= j <= |alarms|
    ensures j < |alarms| ==> Malformed(alarms[j])
    ensures forall k :: i <= k < j ==> !Malformed(alarms[k])
    decreases |alarms| - i
  {
    if i == |alarms| || Malformed(alarms[i]) then i else FirstMalformed(alarms, i + 1)
  }

  /** The loop of `display_alarms` from position `i` on. */
  function PassFrom(alarms: seq<Alarm>, i: nat, now: Instant): (p: Pass)
    requires i <= |alarms| && ValidInstant(now)
    ensures Increasing(p.armed)
    ensures forall k :: 0 <= k < |p.armed| ==> i <= p.armed[k] < |alarms|
    ensures forall k :: 0 <= k < |p.armed| ==> Armable(alarms[p.armed[k]], now)
    ensures forall k :: 0 <= k < |p.armed| ==> p.armed[k] < FirstMalformed(alarms, i)
    decreases |alarms| - i
  {
    if i == |alarms| then Pass([], false)
    else if !alarms[i].active then
      assert FirstMalformed(alarms, i) == FirstMalformed(alarms, i + 1);
      PassFrom(alarms, i + 1, now)
    else
      match Parse(alarms[i].time)
      case None => Pass([], true)
      case Some(m) =>
        assert FirstMalformed(alarms, i) == FirstMalformed(alarms, i + 1);
        var rest := PassFrom(alarms, i + 1, now);
        if DelayMicros(m, now) > 0 then
          assert Armable(alarms[i], now);
          PrependArmed(alarms, i, now, rest.armed, FirstMalformed(alarms, i));
          Pass([i] + rest.armed, rest.crashed)
        else
          rest
  }

  /** Putting an armable position in front of the later positions a pass armed keeps the
      pass's guarantees. */
  lemma PrependArmed(alarms: seq<Alarm>, i: nat, now: Instant, later: seq<nat>, stop: nat)
    requires i < stop && i < |alarms| && ValidInstant(now) && Armable(alarms[i], now)
    requires Increasing(later)
    requires forall k :: 0 <= k < |later| ==> i + 1 <= later[k] < |alarms|
    requires forall k :: 0 <= k < |later| ==> Armable(alarms[later[k]], now)
    requires forall k :: 0 <= k < |later| ==> later[k] < stop
    ensures Increasing([i] + later)
    ensures forall k :: 0 <= k < |[i] + later| ==> i <= ([i] + later)[k] < |alarms|
    ensures forall k :: 0 <= k < |[i] + later| ==> Armable(alarms[([i] + later)[k]], now)
    ensures forall k :: 0 <= k < |[i] + later| ==> ([i] + later)[k] < stop
  {
  }

  /** A pass stops early exactly when it meets a malformed active entry. */
  lemma {:induction false} PassFromCrashes(alarms: seq<Alarm>, i: nat, now: Instant)
    requires i <= |alarms| && ValidInstant(now)
    ensures PassFrom(alarms, i, now).crashed <==> FirstMalformed(alarms, i) < |alarms|
    decreases |alarms| - i
  {
    if i < |alarms| && !Malformed(alarms[i]) {
      PassFromCrashes(alarms, i + 1, now);
      assert FirstMalformed(alarms, i) == FirstMalformed(alarms, i + 1);
      if alarms[i].active {
        var rest := PassFrom(alarms, i + 1, now);
        assert PassFrom(alarms, i, now).crashed == rest.crashed;
      }
    }
  }

  /** Up to the first malformed active entry, a pass arms every armable entry. */
  lemma {:induction false} PassFromComplete(alarms: seq<Alarm>, i: nat, now: Instant, j: nat)
    requires i <= j < |alarms| && ValidInstant(now)
    requires j < FirstMalformed(alarms, i) && Armable(alarms[j], now)
    ensures j in PassFrom(alarms, i, now).armed
    decreases |alarms| - i
  {
    var p := PassFrom(alarms, i, now);
    if i == j {
      assert p.armed[0] == j;
    } else {
      assert !Malformed(alarms[i]);
      assert FirstMalformed(alarms, i) == FirstMalformed(alarms, i + 1);
      PassFromComplete(alarms, i + 1, now, j);
      var rest := PassFrom(alarms, i + 1, now);
      if !alarms[i].active {
        assert p == rest;
      } else {
        var m := Parse(alarms[i].time).value;
        if DelayMicros(m, now) > 0 {
          assert p.armed == [i] + rest.armed;
        } else {
          assert p == rest;
        }
      }
    }
  }

  /** One full display pass over the list. */
  function Display(alarms: seq<Alarm>, now: Instant): (p: Pass)
    requires ValidInstant(now)
    ensures Increasing(p.armed)
    ensures forall k :: 0 <= k < |p.armed| ==> p.armed[k] < |alarms|
    ensures forall k :: 0 <= k < |p.armed| ==> Armable(alarms[p.armed[k]], now)
    ensures forall k :: 0 <= k < |p.armed| ==> p.armed[k] < FirstMalformed(alarms, 0)
  {
    PassFrom(alarms, 0, now)
  }

  /** A display pass arms exactly the active entries whose moment is strictly after now and
      that come before the first malformed active entry: the timers started before the pass
      raised stay armed, and nothing from the malformed entry on is reached. */
  lemma DisplayArms(alarms: seq<Alarm>, now: Instant)
    requires ValidInstant(now)
    ensures Display(alarms, now).crashed <==> FirstMalformed(alarms, 0) < |alarms|
    ensures forall j :: 0 <= j < |alarms| ==>
      (j in Display(alarms, now).armed <==>
         && j < FirstMalformed(alarms, 0)
         && alarms[j].active && Parse(alarms[j].time).Some? && After(Parse(alarms[j].time).value, now))
  {
    PassFromCrashes(alarms, 0, now);
    forall j | 0 <= j < FirstMalformed(alarms, 0) && j < |alarms| && Armable(alarms[j], now)
      ensures j in Display(alarms, now).armed
    {
      PassFromComplete(alarms, 0, now, j);
    }
    forall j | 0 <= j < |alarms|
      ensures Armable(alarms[j], now) <==>
        alarms[j].active && Parse(alarms[j].time).Some? && After(Parse(alarms[j].time).value, now)
    {
      ArmableIffActiveAndFuture(alarms[j], now);
    }
  }

  /** On a list with no malformed active entry, a display pass completes and arms a timer for
      exactly the active entries whose moment is strictly after now, each once, in list order. */
  lemma DisplayArmsExactly(alarms: seq<Alarm>, now: Instant)
    requires ValidInstant(now)
    requires forall j :: 0 <= j < |alarms| ==> !Malformed(alarms[j])
    ensures !Display(alarms, now).crashed
    ensures Increasing(Display(alarms, now).armed)
    ensures forall j :: 0 <= j < |alarms| ==>
      (j in Display(alarms, now).armed <==>
         alarms[j].active && Parse(alarms[j].time).Some? && After(Parse(alarms[j].time).value, now))
  {
    PassFromCrashes(alarms, 0, now);
    assert FirstMalformed(alarms, 0) == |alarms|;
    forall j | 0 <= j < |alarms| && Armable(alarms[j], now)
      ensures j in Display(alarms, now).armed
    {
      PassFromComplete(alarms, 0, now, j);
    }
    forall j | 0 <= j < |alarms|
      ensures Armable(alarms[j], now) <==>
        alarms[j].active && Parse(alarms[j].time).Some? && After(Parse(alarms[j].time).value, now)
    {
      ArmableIffActiveAndFuture(alarms[j], now);
    }
  }

  /** A display pass never arms an inactive entry or one whose moment is not after now. */
  lemma DisplayNeverArmsPastOrInactive(alarms: seq<Alarm>, now: Instant, j: nat)
    requires ValidInstant(now) && j < |alarms|
    requires !alarms[j].active || (Parse(alarms[j].time).Some? && !After(Parse(alarms[j].time).value, now))
    ensures j !in Display(alarms, now).armed
  {
    ArmableIffActiveAndFuture(alarms[j], now);
  }
}

=== FILE: sound_player.dfy ===
/** The sound player reduced to its two observable flags: whether the alarm clip is playing and
    whether the "Stop Alarm" button is enabled. */
module SoundPlayer {

  datatype Player = Player(playing: bool, stopEnabled: bool)

  /** At start-up nothing plays and the stop button is created disabled. */
  const Initial: Player := Player(false, false)

  /** The stop button is enabled exactly when the clip is playing. */
  predicate Consistent(p: Player) {
    p.stopEnabled == p.playing
  }

  /** `play_alarm_sound`: enables the stop button first, then loads the clip and loops it.
      When the clip fails to load the call raises after the button is already enabled, and the
      player keeps whatever it was doing. */
  function Play(p: Player, clipLoads: bool): (r: Player)
    ensures r.stopEnabled
    ensures r.playing <==> clipLoads || p.playing
  {
    Player(if clipLoads then true else p.playing, true)
  }

  /** `stop_alarm_sound`: halts the music and disables the stop button. */
  function Stop(p: Player): (r: Player)
    ensures !r.playing && !r.stopEnabled
  {
    Player(false, false)
  }

  lemma InitialConsistent()
    ensures Consistent(Initial) && !Initial.playing
  {
  }

  /** A successful play leaves the player consistent, playing, from any state. */
  lemma PlayConsistent(p: Player)
    ensures Consistent(Play(p, true)) && Play(p, true).playing
  {
  }

  /** A clip that fails to load from the idle state leaves the stop button enabled while
      nothing plays: the one way to break the button invariant. */
  lemma FailedPlayBreaksConsistency()
    ensures !Consistent(Play(Initial, false))
    ensures Play(Initial, false).stopEnabled && !Play(Initial, false).playing
  {
  }

  /** Stopping always restores consistency, and stopping twice is the same as stopping once. */
  lemma StopIdempotent(p: Player)
    ensures Consistent(Stop(p))
    ensures Stop(Stop(p)) == Stop(p)
  {
  }
}

=== FILE: store.dfy ===
/** The alarm file as an abstract snapshot of the alarm list. `save_alarms` overwrites the whole
    file with the current list; `load_alarms` reads it back at start-up. */
module Store {
  import opened Wrappers
  import opened AlarmList

  /** The alarm file: the list it holds when it can be read back as one (None when it is
      missing, unreadable or malformed), and whether it can currently be written. */
  datatype Disk = Disk(content: Option<seq<Alarm>>, writable: bool)

  /** The result of `load_alarms`: the list the application starts with, and whether the
      "Could not load alarms" error was shown. */
  datatype Loaded = Loaded(alarms: seq<Alarm>, failed: bool)

  /** `load_alarms` run right after the list was initialised empty: a failed read leaves the
      empty list in place. */
  function Load(disk: Disk): (r: Loaded)
    ensures r.failed <==> disk.content.None?
    ensures r.failed ==> r.alarms == []
    ensures !r.failed ==> disk.content == Some(r.alarms)
  {
    match disk.content
    case Some(alarms) => Loaded(alarms, false)
    case None => Loaded([], true)
  }

  /** `save_alarms`: replaces the whole file with `alarms`; None is the write error, which
      leaves the file as it was. */
  function Save(disk: Disk, alarms: seq<Alarm>): (r: Option<Disk>)
    ensures r.Some? <==> disk.writable
    ensures r.Some? ==> r.value.content == Some(alarms) && r.value.writable
  {
    if disk.writable then Some(disk.(content := Some(alarms))) else None
  }

  /** Loading what was just saved gives back exactly the saved list. */
  lemma SaveThenLoad(disk: Disk, alarms: seq<Alarm>)
    requires disk.writable
    ensures Save(disk, alarms).Some?
    ensures Load(Save(disk, alarms).value) == Loaded(alarms, false)
  {
  }

  /** Saving the list just loaded leaves the file as it was. */
  lemma LoadThenSave(disk: Disk)
    requires disk.writable && disk.content.Some?
    ensures Save(disk, Load(disk).alarms) == Some(disk)
  {
  }
}

=== FILE: time_format.dfy ===
/** The `%Y-%m-%d %H:%M` text form of a trigger moment: the string `set_alarm` stores in an
    alarm record and `schedule_alarm` parses back. */
module TimeFormat {
  import opened Wrappers
  import opened Moments

  predicate IsDigit(c: char) {
    '0' <= c <= '9'
  }

  /** The character of the decimal digit `d`. */
  function DigitChar(d: int): (c: char)
    requires 0 <= d < 10
    ensures IsDigit(c) && c as int - '0' as int == d
  {
    (d + '0' as int) as char
  }

  /** `n` in two decimal digits, zero-padded (`%02d`). */
  function Pad2(n: int): (s: string)
    requires 0 <= n < 100
  {
    [DigitChar(n / 10), DigitChar(n % 10)]
  }

  /** `n` in four decimal digits, zero-padded (`%Y`). */
  function Pad4(n: int): (s: string)
    requires 0 <= n < 10000
  {
    Pad2(n / 100) + Pad2(n % 100)
  }

  predicate AllDigits(s: string) {
    forall i :: 0 <= i < |s| ==> IsDigit(s[i])
  }

  /** The number two digit characters spell. */
  function Value2(s: string): int
    requires |s| == 2 && AllDigits(s)
  {
    (s[0] as int - '0' as int) * 10 + (s[1] as int - '0' as int)
  }

  /** The number four digit characters spell. */
  function Value4(s: string): int
    requires |s| == 4 && AllDigits(s)
  {
    Value2(s[..2]) * 100 + Value2(s[2..])
  }

  lemma Pad2Value(n: int)
    requires 0 <= n < 100
    ensures AllDigits(Pad2(n)) && Value2(Pad2(n)) == n
  {
  }

  lemma Value2Pad(s: string)
    requires |s| == 2 && AllDigits(s)
    ensures 0 <= Value2(s) < 100 && Pad2(Value2(s)) == s
  {
    var a, b := s[0] as int - '0' as int, s[1] as int - '0' as int;
    assert 0 <= a < 10 && 0 <= b < 10;
    assert (a * 10 + b) / 10 == a && (a * 10 + b) % 10 == b;
  }

  lemma Pad4Value(n: int)
    requires 0 <= n < 10000
    ensures AllDigits(Pad4(n)) && Value4(Pad4(n)) == n
  {
    var s := Pad4(n);
    assert s[..2] == Pad2(n / 100) && s[2..] == Pad2(n % 100);
    Pad2Value(n / 100);
    Pad2Value(n % 100);
  }

  lemma Value4Pad(s: string)
    requires |s| == 4 && AllDigits(s)
    ensures 0 <= Value4(s) < 10000 && Pad4(Value4(s)) == s
  {
    var hi, lo := s[..2], s[2..];
    Value2Pad(hi);
    Value2Pad(lo);
    var v := Value4(s);
    assert v / 100 == Value2(hi) && v % 100 == Value2(lo);
    assert Pad4(v) == hi + lo;
    assert hi + lo == s;
  }

  /** `strftime('%Y-%m-%d %H:%M')` of a moment. */
  function Format(m: Moment): (s: string)
    requires ValidMoment(m)
    ensures |s| == 16
    ensures s[4] == '-' && s[7] == '-' && s[10] == ' ' && s[13] == ':'
  {
    Pad4(m.year) + "-" + Pad2(m.month) + "-" + Pad2(m.day) + " " + Pad2(m.hour) + ":" + Pad2(m.minute)
  }

  /** The moment a 16-character `YYYY-MM-DD HH:MM` string names, if it names a valid one.
      Anything else is the ValueError `strptime` raises. */
  function Parse(s: string): (r: Option<Moment>)
    ensures r.Some? ==> ValidMoment(r.value)
    ensures r.Some? ==> |s| == 16 && s[4] == '-' && s[7] == '-' && s[10] == ' ' && s[13] == ':'
  {
    if && |s| == 16
       && s[4] == '-' && s[7] == '-' && s[10] == ' ' && s[13] == ':'
       && AllDigits(s[0..4]) && AllDigits(s[5..7]) && AllDigits(s[8..10])
       && AllDigits(s[11..13]) && AllDigits(s[14..16])
    then
      var m := Moment(Value4(s[0..4]), Value2(s[5..7]), Value2(s[8..10]),
                      Value2(s[11..13]), Value2(s[14..16]));
      if ValidMoment(m) then Some(m) else None
    else
      None
  }

  /** The pieces of a formatted moment sit at the fixed columns `Parse` reads. */
  lemma FormatLayout(m: Moment)
    requires ValidMoment(m)
    ensures var s := Format(m);
      && s[0..4] == Pad4(m.year) && s[4] == '-'
      && s[5..7] == Pad2(m.month) && s[7] == '-'
      && s[8..10] == Pad2(m.day) && s[10] == ' '
      && s[11..13] == Pad2(m.hour) && s[13] == ':'
      && s[14..16] == Pad2(m.minute)
  {
  }

  /** Parsing what was formatted gives the moment back, for every valid moment. */
  lemma ParseFormat(m: Moment)
    requires ValidMoment(m)
    ensures Parse(Format(m)) == Some(m)
  {
    FormatLayout(m);
    Pad4Value(m.year);
    Pad2Value(m.month);
    Pad2Value(m.day);
    Pad2Value(m.hour);
    Pad2Value(m.minute);
  }

  /** A string that parses is exactly the formatted form of the moment it names. */
  lemma FormatParse(s: string)
    requires Parse(s).Some?
    ensures ValidMoment(Parse(s).value) && Format(Parse(s).value) == s
  {
    var m := Parse(s).value;
    Value4Pad(s[0..4]);
    Value2Pad(s[5..7]);
    Value2Pad(s[8..10]);
    Value2Pad(s[11..13]);
    Value2Pad(s[14..16]);
    FormatLayout(m);
    var f := Format(m);
    assert forall i :: 0 <= i < 16 ==> f[i] == s[i] by {
      forall i | 0 <= i < 16
        ensures f[i] == s[i]
      {
        if i < 4 { assert f[i] == f[0..4][i]; assert s[i] == s[0..4][i]; }
        else if 5 <= i < 7 { assert f[i] == f[5..7][i - 5]; assert s[i] == s[5..7][i - 5]; }
        else if 8 <= i < 10 { assert f[i] == f[8..10][i - 8]; assert s[i] == s[8..10][i - 8]; }
        else if 11 <= i < 13 { assert f[i] == f[11..13][i - 11]; assert s[i] == s[11..13][i - 11]; }
        else if 14 <= i { assert f[i] == f[14..16][i - 14]; assert s[i] == s[14..16][i - 14]; }
      }
    }
  }

  /** `Parse` and `Format` are inverse: a string parses to `m` exactly when `m` is a valid
      moment and the string is its formatted form. */
  lemma ParseIffFormat(s: string, m: Moment)
    ensures Parse(s) == Some(m) <==> ValidMoment(m) && s == Format(m)
  {
    if Parse(s) == Some(m) {
      FormatParse(s);
    }
    if ValidMoment(m) && s == Format(m) {
      ParseFormat(m);
    }
  }
}

=== FILE: wrappers.dfy ===
/** The optional-value datatype the rest of the model uses for lookups that can fail. */
module Wrappers {

  /** Either no value, or exactly one value. */
  datatype Option<+T> = None | Some(value: T)
}
